=== FILE: README.md ===
# Wiktionary pronunciation downloader — Dafny model

The script `py/main.py` downloads the first pronunciation recording of a
word from a Wiktionary page. For a URL such as
`https://en.wiktionary.org/wiki/dinde#French` it reads the word (`dinde`) from
the path and the language (`French`) from the fragment. It then drives a
headless browser to the language section and reads the computed `href` of
the first play button. Next it fetches that file page and picks the first
anchor that links to an `.ogg` or `.wav` file on `upload.wikimedia.org`. It
makes that link absolute, downloads it and saves it as
`<word>_<language lower-cased><extension>`. The main block runs this for every
URL of a list and prints a summary.

This project models the decision logic of that script as pure functions:

- `wrappers.dfy`: `Option` and `Result`.
- `text.dfy`: the parts of Python's `str` used by the script or by
  `urlparse` and `os.path.splitext` on its behalf. These are `startswith`,
  `endswith`, `count`, ASCII `lower`, `split` on one character, cutting at
  the first occurrence of a character, and `rfind`. `split` is proved
  against `join` in both directions.
- `urls.dfy`: the request URL, already split by `urlparse`. It also holds the
  word/language extraction and the origin used for absolutisation.
- `links.dfy`: first-match selection of the download link, absolutisation,
  the extension and the file name. The extension is taken as line 152 does:
  `urlparse` first drops the fragment, the query and the `;` parameters of
  the last path piece, and then `os.path.splitext` (POSIX rules) is applied.
- `pipeline.dfy`: one call of `download_pronunciation`. Each external step is
  replaced by its outcome in an `Oracle` record: driver start, navigation,
  section lookup, scrolling, play-button lookup, file-page fetch, audio fetch
  and file write. The model computes the outcome (a file name or an error
  kind), whether `webdriver.Chrome` was called and whether it returned a
  driver, how many times `driver.quit()` ran, and which URLs were requested.
- `batch.dfy`: the main block, with one entry per URL in input order and the
  summary counts and listing.

The model exposes one quirk of the control flow. The driver is released at
line 103. An exception after that point that is not a
`requests.RequestException` reaches the outer handler at lines 162-165, which
calls `driver.quit()` a second time. Examples are a failed file write or a
non-`requests` error while fetching. `Pipeline.Download` states that
`driver.quit()` runs twice exactly on this path and once on every other path
that started a driver.

So `driver.quit()` does not run exactly once per request. It runs zero times
when `webdriver.Chrome` raises (lines 48-53) and twice on the path above
(lines 103 and 164).

The summary counts successes with `is not None` (line 183) but lists files by
truthiness (line 193). The two agree because a saved file name always
contains `_` and so is never empty. `Batch.BatchReport` proves this.

## Model

| member | source | states |
|---|---|---|
| Text.Count | py/main.py:125 | `str.count` of a non-empty needle never exceeds the string's length, and it is positive only if the needle fits |
| Text.CountPositiveIffOccurs | py/main.py:125 | `href.count(host) > 0` holds exactly when the host occurs somewhere in the href |
| Text.LowerChar | py/main.py:153 | lower-casing a character leaves no upper-case ASCII letter, shifts `A`-`Z` by 32 and keeps every other character |
| Text.Lower | py/main.py:153 | `language.lower()` keeps the length and lowers each character in place |
| Text.LowerIsLowerCase | py/main.py:153 | a lowered language has no upper-case letter, and lowering it again changes nothing |
| Text.LastIndexOf | py/main.py:152 | the index found holds the character and no later index does; it is -1 exactly when the character is absent |
| Text.Split | py/main.py:31 | `path.split('/')` is never empty, no piece contains `/`, and a path without `/` splits into itself alone |
| Text.JoinSplit | py/main.py:31 | joining the pieces of a split with the separator gives back the original string |
| Text.SplitJoin | py/main.py:31 | splitting a join of separator-free pieces gives back exactly those pieces |
| Text.LastOfSplitIsLastPiece | py/main.py:31 | the last element of `split('/')` is a `/`-free suffix that is either the whole path or preceded by `/` |
| Text.LastPieceUnique | py/main.py:31 | at most one string has that shape, so it defines the word uniquely |
| Text.LastPiece | py/main.py:31 | `path.split('/')[-1]` is the last piece of the path in the sense above |
| Urls.ParseRequest | py/main.py:29-35 | a request is rejected exactly when the fragment is empty; otherwise the language is the fragment verbatim and the word is the last `/`-piece of the path |
| Urls.WordOfDinde | py/main.py:31 | path `/wiki/dinde` gives the word `dinde` |
| Urls.ParseDinde | py/main.py:29-31 | `/wiki/dinde#French` gives word `dinde` and language `French` |
| Links.QualifyingHrefMentionsHost | py/main.py:125-130 | a qualifying href contains `upload.wikimedia.org` and so is non-empty, which makes the truthiness test at line 130 mean "no match" |
| Links.FirstDownloadLink | py/main.py:122-132 | the result is absent exactly when no anchor's href (missing href read as "") qualifies; otherwise it is the href of the first qualifying anchor in document order |
| Links.FirstDownloadLinkAt | py/main.py:122-128 | when anchor k is the first qualifying one, the selected link is exactly its href |
| Links.FindDownloadLink | py/main.py:122-128 | the `for`/`break` loop returns the same link as the first-match definition |
| Links.Absolutise | py/main.py:135-137 | a link starting with `http` is returned unchanged; any other is joined to `scheme://netloc` of the request |
| Links.AbsolutiseUsesOriginOnly | py/main.py:135-137 | two requests with the same scheme and host absolutise every link alike, whatever their paths and fragments |
| Links.Extension | py/main.py:152 | the extension is empty or a `.`-led suffix of the path without `/` and without a further `.` |
| Links.ExtensionOfNamedFile | py/main.py:152 | a path ending in `stem.e`, where the stem's last character is neither `/` nor `.`, has extension `.e` |
| Links.DotFileHasNoExtension | py/main.py:152 | a path ending in a last piece `/.e` (leading dot only) has no extension |
| Text.BeforeFirst | py/main.py:152 | cutting at the first `c` keeps a `c`-free prefix, and the cut falls on a `c` whenever anything is dropped |
| Links.StripParams | py/main.py:152 | the parameters `urlparse` splits off are cut at the first `;` after the last `/`; nothing else is dropped |
| Links.FilePart | py/main.py:152 | the part of the link that `urlparse(link).path` ends with is a prefix of the link with no `#` and no `?`, and when it is shorter than the link the cut falls on a `#`, `?` or `;` |
| Links.FilePartBeforeQuery | py/main.py:152 | when the first `#` or `?` of a link follows `base`, everything from there on is dropped, and of `base` only its last piece's parameters |
| Links.FilePartOfPlainLink | py/main.py:152 | a link without `#`, `?` or `;` is kept whole |
| Links.StripParamsOfLastPiece | py/main.py:152 | for `dir/name;params` with no `;` in `name` and no `/` in `params`, the parameters cut away are exactly `;params` |
| Links.LinkExtension | py/main.py:152 | `splitext(urlparse(link).path)[1]` is empty or a `.`-led suffix of the link's file part without `/` and without a further `.` |
| Links.ParamsHideExtension | py/main.py:152 | the extension of `dir/name;params` is that of `dir/name`, so `.../Fr-a;b.ogg` gets no `.ogg` |
| Links.FileName | py/main.py:152-153 | the name is the word, then `_`, then the lower-cased language, then the extension, so it is never empty |
| Links.FileNameCollision | py/main.py:153-157 | for one word and extension, two languages give the same file name exactly when they agree after lower-casing, so a later download overwrites the earlier file |
| Links.PlainNamedLinkExtension | py/main.py:152 | a link `stem` + `ext` without `#`, `?` or `;`, whose stem ends in neither `/` nor `.` and whose `ext` is a `.` followed by no `.` or `/`, has extension `ext` |
| Links.OggLinkExtension | py/main.py:152 | a link `stem.ogg` whose stem ends in neither `/` nor `.` and has no `#`, `?` or `;` has extension `.ogg` |
| Links.FileNameDinde | py/main.py:152-153 | `dinde` in `French` from a link `stem.ogg` whose stem ends in neither `/` nor `.` and has no `#`, `?` or `;` is saved as `dinde_french.ogg` |
| Pipeline.Browse | py/main.py:48-103 | the browser stage yields the first play button's href exactly when every browser step succeeds; otherwise it yields `BrowserInit` without a quit, or an open-driver error with exactly one quit |
| Pipeline.Resolve | py/main.py:105-160 | the file page is always requested first; the download link is requested second exactly when a qualifying anchor exists; a file is saved exactly when fetch, match, download and write all succeed; the outer handler is reached exactly when the file page fetch or, after a match, the download raises something other than a `RequestException`, or the write fails; the file is saved under the name built from the extension of the downloaded link's path |
| Pipeline.Download | py/main.py:17-165 | an empty fragment means no driver creation attempt, no quit and no request; a driver is launched exactly when creation is attempted and succeeds; a file is returned exactly when every stage succeeds; quit runs zero times when the fragment is empty or `webdriver.Chrome` raises, twice when the browser stage succeeds and an uncaught exception follows line 103, and once on every other path, which covers every early exit before line 103 and success |
| Pipeline.SavedUnderDerivedName | py/main.py:135-160 | when every stage succeeds and the link is absolute, the result is the name derived from the word, language and that link, with one quit |
| Pipeline.DownloadDinde | py/main.py:17-160 | the request `/wiki/dinde#French` whose stages succeed, on a file page whose first qualifying anchor is a link `stem.ogg` starting with `http`, without `#`, `?` or `;`, returns `dinde_french.ogg` after one quit |
| Batch.ProcessAll | py/main.py:172-176 | one entry per URL in input order; each entry holds a file name exactly when that request's stages all succeed |
| Batch.SuccessCount | py/main.py:183 | the number of non-`None` results never exceeds the number of results |
| Batch.FailuresAreTheRest | py/main.py:183-184 | `failed = total - successful` equals the number of `None` results |
| Batch.SavedCount | py/main.py:183-194 | there is one saved name per success |
| Batch.ListedIsSaved | py/main.py:190-194 | when no result is an empty name, the truthiness-filtered listing is exactly the non-`None` results in input order |
| Batch.NoSuccessListsNothing | py/main.py:183-194 | with no success the file listing is empty, so the `successful > 0` guard at line 190 changes nothing |
| Batch.Summarize | py/main.py:183-194 | the summary's total, successful and failed counts and its file listing are the ones defined above |
| Batch.BatchReport | py/main.py:172-194 | for any batch, the listing equals the non-`None` results in order, its length is the success count, and failures are the total minus successes |

## Left out

- Browser automation is not modelled: rendering, the fixed `time.sleep` waits, `scrollIntoView` and reading the computed `href` property. Each step is an oracle outcome.
- The HTTP fetches through `requests` and `raise_for_status` are not modelled. Each fetch ends in success, a `RequestException`, or another exception.
- HTML parsing with BeautifulSoup is not modelled. A file page is the sequence of its anchors' optional `href` values in document order.
- `urlparse` of the request URL is not modelled. The request URL is taken already split into scheme, netloc, path and fragment, with an absent fragment read as "".
- Links.Absolutise: `urljoin` is a function parameter left uninterpreted. Only the case that keeps a link starting with `http` unchanged is stated.
- Links.LinkExtension: `urlparse(link).path` is approximated by the link without its fragment, query and last-piece parameters. The scheme and host stay in front of it. The model agrees with `urlparse` for ordinary `scheme://host/path` links without tab, CR or LF. It differs when the path is empty (`https://host.ogg`), when the link holds a tab, CR or LF, which `urlsplit` deletes first (`https://upload.wikimedia.org/x/\t.ogg` has no extension there), and when no `//` follows the scheme, so everything before the first `:` is the scheme (`httpupload.wikimedia.org:.ogg` has path `.ogg` and no extension there). Parameters are always split off, as `urlparse` does for `http`, `https` and links without a scheme, but not for every scheme.
- Text.Lower: models ASCII lower-casing only, not Unicode `str.lower()`.
- Pipeline.Download: assumes BeautifulSoup (line 120), `urljoin` (line 137) and `urlparse(download_link)` (line 152) never raise; if one did, the handler at lines 162-165 would quit a second time, and "saved exactly when every stage succeeds" holds only under this assumption. It also assumes `driver.quit()` never raises. A second quit on an already-released driver could raise inside the handler at line 164. Exceptions outside `Exception` (such as `KeyboardInterrupt`) are not modelled.
- Writing the audio bytes to disk, the console output and the hard-coded `URLS` list are not modelled. The file write is modelled only as success or failure.
- Pipeline.DownloadDinde: covers only a download link starting with `http` and without `#`, `?` or `;`; for the others `Links.ParamsHideExtension` shows how the extension can change. A relative link such as `//upload.wikimedia.org/.../Fr-dinde.ogg` goes through the uninterpreted `urljoin`, so its extension cannot be derived.

=== FILE: batch.dfy ===
/** The script's main block (py/main.py, lines 168-194): every URL is
    processed in turn, one result is kept per URL in input order, and the
    summary counts the successes and failures and lists the saved files. */
module Batch {
  import opened Wrappers
  import opened Urls
  import opened Links
  import opened Pipeline

  /** `(url, result)` as appended at line 176. */
  datatype Entry = Entry(url: Url, result: Option<string>)

  /** Lines 172-176: one entry per URL, in input order; `oracles[i]` holds
      the outcomes of the external steps of the i-th request. */
  function ProcessAll(urls: seq<Url>, oracles: seq<Oracle>, join: (string, string) -> string): (results: seq<Entry>)
    requires |oracles| == |urls|
    ensures |results| == |urls|
    ensures forall i :: 0 <= i < |urls| ==> results[i].url == urls[i]
    ensures forall i :: 0 <= i < |urls| ==> (results[i].result.Some? <==> Succeeds(urls[i], oracles[i]))
    ensures forall i :: 0 <= i < |urls| ==> results[i].result == Download(urls[i], oracles[i], join).Result()
  {
    seq(|urls|, i requires 0 <= i < |urls| => Entry(urls[i], Download(urls[i], oracles[i], join).Result()))
  }

  /** Line 183: `sum(1 for _, r in results if r is not None)`. */
  function SuccessCount(results: seq<Entry>): (n: nat)
    ensures n <= |results|
  {
    if |results| == 0 then 0
    else SuccessCount(results[..|results| - 1]) + (if results[|results| - 1].result.Some? then 1 else 0)
  }

  /** The number of entries whose result is `None`. */
  function FailureCount(results: seq<Entry>): nat {
    if |results| == 0 then 0
    else FailureCount(results[..|results| - 1]) + (if results[|results| - 1].result.None? then 1 else 0)
  }

  /** Line 184 computes failures by subtraction; that is the number of
      `None` results. */
  lemma {:induction false} FailuresAreTheRest(results: seq<Entry>)
    ensures FailureCount(results) == |results| - SuccessCount(results)
  {
    if |results| > 0 {
      FailuresAreTheRest(results[..|results| - 1]);
    }
  }

  /** The non-`None` results, in input order. */
  function SavedNames(results: seq<Entry>): seq<string> {
    if |results| == 0 then []
    else SavedNames(results[..|results| - 1]) + (if results[|results| - 1].result.Some? then [results[|results| - 1].result.value] else [])
  }

  /** Lines 192-194: the listed files are the truthy results, so an empty
      file name would be left out. */
  function Listed(results: seq<Entry>): seq<string> {
    if |results| == 0 then []
    else
      var r := results[|results| - 1].result;
      Listed(results[..|results| - 1]) + (if r.Some? && r.value != "" then [r.value] else [])
  }

  /** One saved name per success. */
  lemma {:induction false} SavedCount(results: seq<Entry>)
    ensures |SavedNames(results)| == SuccessCount(results)
  {
    if |results| > 0 {
      SavedCount(results[..|results| - 1]);
    }
  }

  /** Without empty file names, the listing is exactly the saved names. */
  lemma {:induction false} ListedIsSaved(results: seq<Entry>)
    requires forall i :: 0 <= i < |results| && results[i].result.Some? ==> results[i].result.value != ""
    ensures Listed(results) == SavedNames(results)
  {
    if |results| > 0 {
      ListedIsSaved(results[..|results| - 1]);
    }
  }

  /** Line 190 prints the listing only when `successful > 0`; with no
      success the listing is empty anyway, so dropping the guard changes
      nothing. */
  lemma {:induction false} NoSuccessListsNothing(results: seq<Entry>)
    requires SuccessCount(results) == 0
    ensures Listed(results) == []
  {
    if |results| > 0 {
      NoSuccessListsNothing(results[..|results| - 1]);
    }
  }

  /** The summary printed at lines 186-194. */
  datatype Summary = Summary(total: nat, successful: nat, failed: nat, files: seq<string>)

  /** Lines 183-194 as written: count, subtract, then list the truthy results. */
  method Summarize(results: seq<Entry>) returns (s: Summary)
    ensures s.total == |results|
    ensures s.successful == SuccessCount(results)
    ensures s.failed == FailureCount(results)
    ensures s.files == Listed(results)
  {
    var successful := 0;
    var k := 0;
    while k < |results|
      invariant 0 <= k <= |results|
      invariant successful == SuccessCount(results[..k])
    {
      assert results[..k + 1][..k] == results[..k];
      if results[k].result.Some? {
        successful := successful + 1;
      }
      k := k + 1;
    }
    assert results[..|results|] == results;
    FailuresAreTheRest(results);
    var files := [];
    k := 0;
    while k < |results|
      invariant 0 <= k <= |results|
      invariant files == Listed(results[..k])
    {
      assert results[..k + 1][..k] == results[..k];
      var r := results[k].result;
      if r.Some? && r.value != "" {
        files := files + [r.value];
      }
      k := k + 1;
    }
    s := Summary(|results|, successful, |results| - successful, files);
  }

  /** For any batch: total N, successful = the requests whose every stage
      succeeded, failed = N minus that, and the listed files are exactly the
      names returned, in input order. */
  lemma BatchReport(urls: seq<Url>, oracles: seq<Oracle>, join: (string, string) -> string)
    requires |oracles| == |urls|
    ensures var results := ProcessAll(urls, oracles, join);
            && Listed(results) == SavedNames(results)
            && |Listed(results)| == SuccessCount(results)
            && FailureCount(results) == |urls| - SuccessCount(results)
  {
    var results := ProcessAll(urls, oracles, join);
    forall i | 0 <= i < |results| && results[i].result.Some?
      ensures results[i].result.value != ""
    {
      assert results[i].result == Download(urls[i], oracles[i], join).Result();
    }
    ListedIsSaved(results);
    SavedCount(results);
    FailuresAreTheRest(results);
  }
}

=== FILE: links.dfy ===
/** Turning the file page into a download link and a file name
    (py/main.py, lines 122-153): first-match selection of the audio link,
    absolutisation against the request's origin, extension extraction as
    `os.path.splitext` does it on POSIX, and the saved file's name. */
module Links {
  import opened Wrappers
  import opened Text
  import opened Urls

  /** The hosting domain a download link must mention. */
  const Host: string := "upload.wikimedia.org"

  /** `link.get('href', '')`: an anchor without `href` reads as "". */
  function HrefOf(anchor: Option<string>): string {
    if anchor.Some? then anchor.value else ""
  }

  /** Line 125: the href ends in `.ogg` or `.wav` and mentions the host. */
  predicate Qualifies(href: string) {
    (EndsWith(href, ".ogg") || EndsWith(href, ".wav")) && Count(href, Host) > 0
  }

  /** A qualifying href is never empty, so the script's truthiness test
      `if not download_link` (line 130) means "nothing qualified". */
  lemma QualifyingHrefMentionsHost(href: string)
    requires Qualifies(href)
    ensures Occurs(href, Host)
    ensures |href| >= |Host|
  {
    CountPositiveIffOccurs(href, Host);
  }

  /** Anchor `i` is the first, in document order, whose href qualifies. */
  predicate IsFirstQualifying(anchors: seq<Option<string>>, i: int) {
    && 0 <= i < |anchors|
    && Qualifies(HrefOf(anchors[i]))
    && forall j :: 0 <= j < i ==> !Qualifies(HrefOf(anchors[j]))
  }

  /** Lines 122-132: the href of the first qualifying anchor, if any. */
  function FirstDownloadLink(anchors: seq<Option<string>>): (r: Option<string>)
    ensures r.None? <==> forall i :: 0 <= i < |anchors| ==> !Qualifies(HrefOf(anchors[i]))
    ensures r.Some? ==> exists i :: IsFirstQualifying(anchors, i) && r.value == HrefOf(anchors[i])
    ensures r.Some? ==> Qualifies(r.value) && r.value != ""
  {
    if |anchors| == 0 then None
    else if Qualifies(HrefOf(anchors[0])) then
      assert IsFirstQualifying(anchors, 0);
      Some(HrefOf(anchors[0]))
    else
      var r := FirstDownloadLink(anchors[1..]);
      assert forall i :: 1 <= i < |anchors| ==> anchors[1..][i - 1] == anchors[i];
      if r.Some? then
        var i :| IsFirstQualifying(anchors[1..], i) && r.value == HrefOf(anchors[1..][i]);
        assert IsFirstQualifying(anchors, i + 1);
        r
      else r
  }

  /** The first qualifying anchor determines the selected link. */
  lemma FirstDownloadLinkAt(anchors: seq<Option<string>>, k: int)
    requires IsFirstQualifying(anchors, k)
    ensures FirstDownloadLink(anchors) == Some(HrefOf(anchors[k]))
  {
    var r := FirstDownloadLink(anchors);
    assert r.Some?;
    var i :| IsFirstQualifying(anchors, i) && r.value == HrefOf(anchors[i]);
    assert i == k;
  }

  /** The loop of lines 123-128 as written, with its `break`. */
  method FindDownloadLink(anchors: seq<Option<string>>) returns (link: Option<string>)
    ensures link == FirstDownloadLink(anchors)
  {
    link := None;
    var k := 0;
    while k < |anchors|
      invariant 0 <= k <= |anchors|
      invariant link.None?
      invariant forall j :: 0 <= j < k ==> !Qualifies(HrefOf(anchors[j]))
    {
      var href := HrefOf(anchors[k]);
      if (EndsWith(href, ".ogg") || EndsWith(href, ".wav")) && Count(href, Host) > 0 {
        link := Some(href);
        FirstDownloadLinkAt(anchors, k);
        break;
      }
      k := k + 1;
    }
  }

  /** Lines 135-137: a link starting with "http" is kept; any other link is
      resolved by `join` (Python's `urljoin`, left uninterpreted) against the
      origin of the original request URL. */
  function Absolutise(link: string, request: Url, join: (string, string) -> string): (abs: string)
    ensures StartsWith(link, "http") ==> abs == link
    ensures !StartsWith(link, "http") ==> abs == join(Origin(request), link)
  {
    if StartsWith(link, "http") then link else join(Origin(request), link)
  }

  /** Only the scheme and host of the request matter: two requests that
      share them absolutise every link alike, whatever their paths and
      fragments. */
  lemma AbsolutiseUsesOriginOnly(link: string, u: Url, v: Url, join: (string, string) -> string)
    requires u.scheme == v.scheme && u.netloc == v.netloc
    ensures Absolutise(link, u, join) == Absolutise(link, v, join)
  {
  }

  /** Some character strictly between indices `lo` and `hi` of `p` is not
      a dot: the last piece has a name before its final dot. */
  predicate NamedBefore(p: string, lo: int, hi: int) {
    exists k :: lo < k < hi && 0 <= k < |p| && p[k] != '.'
  }

  /** The suffix of `p` from its last dot, when that dot follows its last
      slash, is a `.`-led suffix with no further dot and no slash. */
  lemma SuffixFromLastDot(p: string)
    requires LastIndexOf(p, '.') > LastIndexOf(p, '/')
    ensures var ext := p[LastIndexOf(p, '.')..];
            ext[0] == '.' && EndsWith(p, ext) && '/' !in ext && '.' !in ext[1..]
  {
    var d := LastIndexOf(p, '.');
    var ext := p[d..];
    assert forall j :: 0 <= j < |ext| ==> ext[j] == p[d + j];
    assert '/' !in ext;
    assert forall j :: 0 <= j < |ext[1..]| ==> ext[1..][j] == p[d + 1 + j];
  }

  /** `os.path.splitext(p)[1]` on POSIX: the suffix from the last `.` of the
      last `/`-piece, unless that piece has nothing but dots before it. */
  function Extension(p: string): (ext: string)
    ensures ext == "" || (ext[0] == '.' && EndsWith(p, ext) && '/' !in ext && '.' !in ext[1..])
  {
    var sepIndex := LastIndexOf(p, '/');
    var dotIndex := LastIndexOf(p, '.');
    if dotIndex > sepIndex && NamedBefore(p, sepIndex, dotIndex) then
      SuffixFromLastDot(p);
      p[dotIndex..]
    else ""
  }

  /** Cutting `p` at the first `;` after index `i`. */
  lemma CutAfter(p: string, i: int)
    requires -1 <= i < |p|
    ensures var r := p[..i + 1] + BeforeFirst(p[i + 1..], ';');
            && |r| <= |p| && r == p[..|r|] && |r| > i
            && (forall j :: i < j < |r| ==> p[j] != ';')
            && (|r| < |p| ==> p[|r|] == ';')
  {
    var t := p[i + 1..];
    var tail := BeforeFirst(t, ';');
    assert forall j :: 0 <= j < |tail| ==> tail[j] == t[j] == p[i + 1 + j];
    var r := p[..i + 1] + tail;
    assert r == p[..|r|];
    if |r| < |p| {
      assert t[|tail|] == p[|r|];
    }
  }

  /** What `urlparse` splits off the last `/`-piece as parameters: the
      string is cut at the first `;` after its last `/`. */
  function StripParams(p: string): (r: string)
    ensures |r| <= |p| && r == p[..|r|]
    ensures forall j :: LastIndexOf(p, '/') < j < |r| ==> p[j] != ';'
    ensures |r| < |p| ==> p[|r|] == ';' && |r| > LastIndexOf(p, '/')
  {
    var i := LastIndexOf(p, '/');
    CutAfter(p, i);
    p[..i + 1] + BeforeFirst(p[i + 1..], ';')
  }

  /** Without a `;`, nothing is stripped. */
  lemma StripParamsAbsent(p: string)
    requires ';' !in p
    ensures StripParams(p) == p
  {
  }

  /** The part of a link that `urlparse(link).path` ends with: the link
      without its fragment (after the first `#`), its query (after the
      first `?`) and the parameters of its last piece. */
  function FilePart(link: string): (r: string)
    ensures |r| <= |link| && r == link[..|r|]
    ensures '#' !in r && '?' !in r
    ensures |r| < |link| ==> link[|r|] == '#' || link[|r|] == '?' || link[|r|] == ';'
  {
    var noFragment := BeforeFirst(link, '#');
    var noQuery := BeforeFirst(noFragment, '?');
    var r := StripParams(noQuery);
    assert forall j :: 0 <= j < |r| ==> r[j] == noQuery[j] == noFragment[j] == link[j];
    r
  }

  /** A link whose first `#` or `?` follows `base` loses everything from
      there on, and then only the parameters of `base`'s last piece. */
  lemma FilePartBeforeQuery(base: string, rest: string)
    requires '#' !in base && '?' !in base
    requires |rest| > 0 && (rest[0] == '#' || rest[0] == '?')
    ensures FilePart(base + rest) == StripParams(base)
  {
    var link := base + rest;
    var noFragment := BeforeFirst(link, '#');
    assert |noFragment| >= |base|;
    assert noFragment[..|base|] == base;
    if |noFragment| > |base| {
      assert noFragment[|base|] == rest[0];
    }
    BeforeFirstAt(noFragment, '?', |base|);
  }

  /** A link without fragment, query or parameters is its own file part. */
  lemma FilePartOfPlainLink(link: string)
    requires '#' !in link && '?' !in link && ';' !in link
    ensures FilePart(link) == link
  {
    BeforeFirstAbsent(link, '#');
    BeforeFirstAbsent(link, '?');
    StripParamsAbsent(link);
  }

  /** Line 152: `os.path.splitext(urlparse(link).path)[1]`. */
  function LinkExtension(link: string): (ext: string)
    ensures ext == "" || (ext[0] == '.' && '/' !in ext && '.' !in ext[1..])
    ensures EndsWith(FilePart(link), ext)
  {
    Extension(FilePart(link))
  }

  /** The last `/` of `dir/tail`, when `tail` has none, is the one after `dir`. */
  lemma LastSlashBeforeTail(dir: string, tail: string)
    requires '/' !in tail
    ensures LastIndexOf(dir + "/" + tail, '/') == |dir|
  {
    var p := dir + "/" + tail;
    var i := LastIndexOf(p, '/');
    assert p[|dir|] == '/';
    assert |dir| <= i;
  }

  /** `urlparse` cuts `dir/name;params` back to `dir/name`. */
  lemma StripParamsOfLastPiece(dir: string, name: string, params: string)
    requires '/' !in name && ';' !in name && '/' !in params
    ensures StripParams(dir + "/" + name + ";" + params) == dir + "/" + name
  {
    var head := dir + "/" + name;
    var tail := name + ";" + params;
    var p := head + ";" + params;
    assert p == dir + "/" + tail;
    LastSlashBeforeTail(dir, tail);
    var k := |head|;
    assert p[..k] == head && p[k] == ';';
    assert p[|dir| + 1..k] == name;
    assert |StripParams(p)| == k;
  }

  /** Parameters on the last piece hide the extension: the extension of
      `dir/name;params` is that of `dir/name`, so `.../Fr-a;b.ogg` has
      none. */
  lemma ParamsHideExtension(dir: string, name: string, params: string)
    requires '#' !in dir && '#' !in name && '#' !in params
    requires '?' !in dir && '?' !in name && '?' !in params
    requires '/' !in name && ';' !in name && '/' !in params
    ensures LinkExtension(dir + "/" + name + ";" + params) == Extension(dir + "/" + name)
  {
    var p := dir + "/" + name + ";" + params;
    assert '#' !in p && '?' !in p;
    BeforeFirstAbsent(p, '#');
    BeforeFirstAbsent(p, '?');
    StripParamsOfLastPiece(dir, name, params);
  }

  /** A file named `stem.e` with a proper stem has extension `.e`. */
  lemma ExtensionOfNamedFile(stem: string, e: string)
    requires |stem| > 0 && stem[|stem| - 1] != '/' && stem[|stem| - 1] != '.'
    requires '.' !in e && '/' !in e
    ensures Extension(stem + "." + e) == "." + e
  {
    var p := stem + "." + e;
    assert p[|stem|] == '.';
    assert forall j :: |stem| < j < |p| ==> p[j] == e[j - |stem| - 1];
    assert LastIndexOf(p, '.') == |stem|;
    assert LastIndexOf(p, '/') < |stem| - 1;
    assert p[|stem| - 1] != '.';
    assert p[|stem|..] == "." + e;
  }

  /** A last piece `/.e`, such as `/.ogg`, has no extension. */
  lemma DotFileHasNoExtension(dir: string, e: string)
    requires '.' !in e && '/' !in e
    ensures Extension(dir + "/." + e) == ""
  {
    var p := dir + "/." + e;
    assert p[|dir|] == '/' && p[|dir| + 1] == '.';
    assert forall j :: |dir| + 1 < j < |p| ==> p[j] == e[j - |dir| - 2];
    assert LastIndexOf(p, '.') == |dir| + 1;
    assert LastIndexOf(p, '/') == |dir|;
  }

  /** Lines 152-153: `f"{word}_{language.lower()}{extension}"`. */
  function FileName(word: string, language: string, ext: string): (name: string)
    ensures |name| == |word| + 1 + |language| + |ext|
    ensures name[..|word|] == word && name[|word|] == '_'
    ensures name[|word| + 1..|word| + 1 + |language|] == Lower(language)
    ensures name[|word| + 1 + |language|..] == ext
    ensures name != ""
  {
    word + "_" + Lower(language) + ext
  }

  /** For one word and extension, two languages give the same file name
      exactly when they agree after lower-casing; the later download then
      overwrites the earlier file. */
  lemma FileNameCollision(word: string, l1: string, l2: string, ext: string)
    ensures FileName(word, l1, ext) == FileName(word, l2, ext) <==> Lower(l1) == Lower(l2)
  {
    if FileName(word, l1, ext) == FileName(word, l2, ext) {
      assert |l1| == |l2|;
    }
  }

  lemma LowerFrench()
    ensures Lower("French") == "french"
  {
    var r := Lower("French");
    assert r[0] == 'f' && r[1] == 'r' && r[2] == 'e' && r[3] == 'n' && r[4] == 'c' && r[5] == 'h';
  }

  lemma FileNameDindeOgg()
    ensures FileName("dinde", "French", ".ogg") == "dinde_french.ogg"
  {
    LowerFrench();
    assert FileName("dinde", "French", ".ogg") == "dinde" + "_" + "french" + ".ogg";
  }

  /** A plain link `stem` + `ext`, where `ext` is a `.` followed by no
      `.`, `/`, `#`, `?` or `;`, has extension `ext`. */
  lemma PlainNamedLinkExtension(stem: string, ext: string)
    requires |stem| > 0 && stem[|stem| - 1] != '/' && stem[|stem| - 1] != '.'
    requires '#' !in stem && '?' !in stem && ';' !in stem
    requires |ext| > 0 && ext[0] == '.'
    requires forall j :: 0 < j < |ext| ==> ext[j] !in "./#?;"
    ensures LinkExtension(stem + ext) == ext
  {
    var link := stem + ext;
    var e := ext[1..];
    forall j | 0 <= j < |link|
      ensures link[j] != '#' && link[j] != '?' && link[j] != ';'
    {
      if j < |stem| {
        assert link[j] == stem[j];
      } else {
        assert link[j] == ext[j - |stem|];
      }
    }
    assert forall j :: 0 <= j < |e| ==> e[j] == ext[j + 1];
    assert link == stem + "." + e;
    FilePartOfPlainLink(link);
    ExtensionOfNamedFile(stem, e);
  }

  /** A plain link `stem.ogg` has extension `.ogg`. */
  lemma OggLinkExtension(stem: string)
    requires |stem| > 0 && stem[|stem| - 1] != '/' && stem[|stem| - 1] != '.'
    requires '#' !in stem && '?' !in stem && ';' !in stem
    ensures LinkExtension(stem + ".ogg") == ".ogg"
  {
    PlainNamedLinkExtension(stem, ".ogg");
  }

  /** The docstring's example URL (line 23) asks for "dinde" in French;
      from a link `stem.ogg` whose stem ends in neither `/` nor `.` and that
      has no query, fragment or parameters, it is saved as
      `dinde_french.ogg`. */
  lemma FileNameDinde(stem: string)
    requires |stem| > 0 && stem[|stem| - 1] != '/' && stem[|stem| - 1] != '.'
    requires '#' !in stem && '?' !in stem && ';' !in stem
    ensures FileName("dinde", "French", LinkExtension(stem + ".ogg")) == "dinde_french.ogg"
  {
    OggLinkExtension(stem);
    FileNameDindeOgg();
  }
}

=== FILE: pipeline.dfy ===
/** One call of `download_pronunciation` (py/main.py, lines 17-165) with
    every external step -- the browser, the two HTTP GETs and the file
    write -- replaced by its outcome, supplied as an oracle. The model
    follows the script's control flow: which error ends the request, how
    many times `driver.quit()` runs, and which URLs are fetched. */
module Pipeline {
  import opened Wrappers
  import opened Text
  import opened Urls
  import opened Links

  /** How one `requests.get(...)` followed by `raise_for_status()` ended. */
  datatype Fetch<+T> =
    | Fetched(body: T)   // a success status
    | RequestFailed      // a `requests.RequestException`, caught on the spot
    | Crashed            // any other exception, caught by the outer handler

  /** The outcome of every external step of one request. */
  datatype Oracle = Oracle(
    driverStarts: bool,                    // line 49: `webdriver.Chrome(...)`
    pageLoads: bool,                       // lines 58-61: `driver.get(url)` and the wait
    sectionFound: bool,                    // line 65: an element whose id is the language
    scrolls: bool,                         // lines 73-74: `scrollIntoView` and the wait
    playButtons: Option<seq<string>>,      // lines 80-89: computed `href` of each play button ("" when unset); None if the lookup raised
    filePage: Fetch<seq<Option<string>>>,  // lines 113-120: the `href` of every anchor, in document order
    audio: Fetch<()>,                      // lines 145-146
    fileWritten: bool                      // lines 156-157: opening and writing the file
  )

  /** Why a request produced no file. */
  datatype ErrorKind =
    | MissingLanguage   // line 35
    | BrowserInit       // line 53
    | PageLoad          // navigation raised; outer handler, line 165
    | SectionNotFound   // line 70
    | Scroll            // scrolling raised; outer handler, line 165
    | ButtonLookup      // the button lookup raised; line 101
    | NoAudioControl    // line 85
    | UnresolvedHref    // line 94
    | FetchError        // line 117
    | NoDownloadLink    // line 132
    | DownloadError     // line 149
    | Unexpected        // any other exception after the driver was released; line 165

  /** Errors that end a request while the driver is still open. */
  predicate WhileDriverOpen(e: ErrorKind) {
    e in {PageLoad, SectionNotFound, Scroll, ButtonLookup, NoAudioControl, UnresolvedHref}
  }

  datatype Outcome = Saved(filename: string) | Failed(error: ErrorKind)

  /** What one request did: its outcome, whether `webdriver.Chrome(...)`
      was called (`attempted`) and whether it returned a driver
      (`launched`), how many times `driver.quit()` ran, and the URLs passed
      to `requests.get`, in order. */
  datatype Trace = Trace(outcome: Outcome, attempted: bool, launched: bool, quits: nat, requested: seq<string>) {
    /** The function's return value: the file name, or `None`. */
    function Result(): Option<string> {
      if outcome.Saved? then Some(outcome.filename) else None
    }
  }

  /** The browser stage, lines 48-103, as a conjunction of successes. */
  predicate BrowserSucceeds(o: Oracle) {
    && o.driverStarts && o.pageLoads && o.sectionFound && o.scrolls
    && o.playButtons.Some? && |o.playButtons.value| > 0 && o.playButtons.value[0] != ""
  }

  /** Every stage of a request succeeds. */
  predicate Succeeds(u: Url, o: Oracle) {
    && u.fragment != ""
    && BrowserSucceeds(o)
    && o.filePage.Fetched? && FirstDownloadLink(o.filePage.body).Some?
    && o.audio.Fetched? && o.fileWritten
  }

  /** An exception after line 103 that no inner handler catches: the file
      page fetch raised something other than a `RequestException`, or, with
      a qualifying link, the download did, or the file could not be written. */
  predicate CrashesAfterRelease(o: Oracle) {
    || o.filePage.Crashed?
    || (&& o.filePage.Fetched? && FirstDownloadLink(o.filePage.body).Some?
        && (o.audio.Crashed? || (o.audio.Fetched? && !o.fileWritten)))
  }

  /** The browser stage's result: the file page's URL or an error, and the
      number of `driver.quit()` calls made within the stage. */
  datatype BrowserRun = BrowserRun(fileHref: Result<string, ErrorKind>, quits: nat)

  /** Lines 48-103: launch, navigate, find the section, scroll, read the
      first play button's computed `href`, and release the driver. */
  function Browse(o: Oracle): (b: BrowserRun)
    ensures b.fileHref.Success? <==> BrowserSucceeds(o)
    ensures b.fileHref.Success? ==> b.fileHref.value == o.playButtons.value[0] && b.fileHref.value != ""
    ensures b.fileHref.Failure? && !o.driverStarts ==> b.fileHref.error == BrowserInit
    ensures b.fileHref.Failure? && o.driverStarts ==> WhileDriverOpen(b.fileHref.error)
    ensures b.quits == (if o.driverStarts then 1 else 0)
  {
    if !o.driverStarts then BrowserRun(Failure(BrowserInit), 0)
    else if !o.pageLoads then BrowserRun(Failure(PageLoad), 1)
    else if !o.sectionFound then BrowserRun(Failure(SectionNotFound), 1)
    else if !o.scrolls then BrowserRun(Failure(Scroll), 1)
    else match o.playButtons
      case None => BrowserRun(Failure(ButtonLookup), 1)
      case Some(hrefs) =>
        if |hrefs| == 0 then BrowserRun(Failure(NoAudioControl), 1)
        else if hrefs[0] == "" then BrowserRun(Failure(UnresolvedHref), 1)
        else BrowserRun(Success(hrefs[0]), 1)
  }

  /** The media stage's result: its outcome and the URLs it requested. */
  datatype MediaRun = MediaRun(outcome: Outcome, requested: seq<string>)

  /** Lines 105-160, after the driver is released: fetch the file page,
      pick the download link, absolutise it, download it and save it. */
  function Resolve(u: Url, req: Request, fileHref: string, o: Oracle, join: (string, string) -> string): (m: MediaRun)
    ensures m.outcome.Saved? <==> o.filePage.Fetched? && FirstDownloadLink(o.filePage.body).Some? && o.audio.Fetched? && o.fileWritten
    ensures 1 <= |m.requested| <= 2 && m.requested[0] == fileHref
    ensures |m.requested| == 2 <==> o.filePage.Fetched? && FirstDownloadLink(o.filePage.body).Some?
    ensures |m.requested| == 2 ==>
              m.requested[1] == Absolutise(FirstDownloadLink(o.filePage.body).value, u, join)
    ensures m.outcome.Saved? ==>
              m.outcome.filename == FileName(req.word, req.language, LinkExtension(m.requested[1]))
    ensures m.outcome.Failed? ==> m.outcome.error in {FetchError, NoDownloadLink, DownloadError, Unexpected}
    ensures m.outcome == Failed(Unexpected) <==> CrashesAfterRelease(o)
  {
    match o.filePage
    case RequestFailed => MediaRun(Failed(FetchError), [fileHref])
    case Crashed => MediaRun(Failed(Unexpected), [fileHref])
    case Fetched(anchors) =>
      match FirstDownloadLink(anchors)
      case None => MediaRun(Failed(NoDownloadLink), [fileHref])
      case Some(link) =>
        var download := Absolutise(link, u, join);
        match o.audio
        case RequestFailed => MediaRun(Failed(DownloadError), [fileHref, download])
        case Crashed => MediaRun(Failed(Unexpected), [fileHref, download])
        case Fetched(_) =>
          if o.fileWritten then
            MediaRun(Saved(FileName(req.word, req.language, LinkExtension(download))), [fileHref, download])
          else MediaRun(Failed(Unexpected), [fileHref, download])
  }

  /** `download_pronunciation(url)`: parse, browse, resolve; the outer
      handler of lines 162-165 quits the driver once more for any other
      exception, even though line 103 already released it. */
  function Download(u: Url, o: Oracle, join: (string, string) -> string): (t: Trace)
    // A request without a language never launches a driver or fetches anything.
    ensures u.fragment == "" <==> t.outcome == Failed(MissingLanguage)
    ensures u.fragment == "" ==> !t.attempted && !t.launched && t.quits == 0 && t.requested == []
    ensures t.attempted <==> u.fragment != ""
    ensures t.launched <==> t.attempted && o.driverStarts
    // A file is saved exactly when every stage succeeds, and it is named
    // after the word, the lower-cased language and the downloaded link.
    ensures t.outcome.Saved? <==> Succeeds(u, o)
    ensures t.outcome.Saved? ==>
              && |t.requested| == 2
              && t.requested[0] == o.playButtons.value[0]
              && t.requested[1] == Absolutise(FirstDownloadLink(o.filePage.body).value, u, join)
              && t.outcome.filename == FileName(LastPiece(u.path, '/'), u.fragment, LinkExtension(t.requested[1]))
    // Nothing is fetched unless the browser stage produced an href.
    ensures t.requested != [] ==> BrowserSucceeds(o)
    // The driver is quit only if it was started, and then at least once.
    ensures t.quits == 0 <==> !t.launched
    ensures t.quits <= 2
    // Every path through the browser stage quits exactly once, as does success.
    ensures t.outcome.Failed? && WhileDriverOpen(t.outcome.error) ==> t.quits == 1
    ensures t.outcome.Saved? ==> t.quits == 1
    // An unexpected exception after line 103 quits a second time.
    ensures t.quits == 2 <==> t.outcome == Failed(Unexpected)
    // In terms of the steps: no quit without a launched driver, two after
    // an uncaught exception past line 103, and one on every other path.
    ensures t.outcome == Failed(Unexpected) <==> u.fragment != "" && BrowserSucceeds(o) && CrashesAfterRelease(o)
    ensures t.quits == (if u.fragment == "" || !o.driverStarts then 0
                        else if BrowserSucceeds(o) && CrashesAfterRelease(o) then 2
                        else 1)
  {
    match ParseRequest(u)
    case None => Trace(Failed(MissingLanguage), false, false, 0, [])
    case Some(req) =>
      var b := Browse(o);
      match b.fileHref
      case Failure(e) => Trace(Failed(e), true, o.driverStarts, b.quits, [])
      case Success(fileHref) =>
        var m := Resolve(u, req, fileHref, o, join);
        var extra := if m.outcome == Failed(Unexpected) then 1 else 0;
        Trace(m.outcome, true, true, b.quits + extra, m.requested)
  }

  /** A request whose stages all succeed and whose download link is
      already absolute returns the name built from that link, having quit
      the driver once. */
  lemma SavedUnderDerivedName(u: Url, o: Oracle, join: (string, string) -> string)
    requires Succeeds(u, o)
    requires StartsWith(FirstDownloadLink(o.filePage.body).value, "http")
    ensures var t := Download(u, o, join);
            && t.Result() == Some(FileName(LastPiece(u.path, '/'), u.fragment, LinkExtension(FirstDownloadLink(o.filePage.body).value)))
            && t.quits == 1
  {
  }

  /** The docstring's example URL (line 23) end to end: with every stage
      succeeding and a file page whose first qualifying anchor `k` is an
      absolute link naming an `.ogg` file, the request for
      `/wiki/dinde#French` saves `dinde_french.ogg`, having quit the driver
      once. */
  lemma DownloadDinde(u: Url, o: Oracle, k: int, stem: string, join: (string, string) -> string)
    requires u.path == "/wiki/dinde" && u.fragment == "French"
    requires BrowserSucceeds(o) && o.audio.Fetched? && o.fileWritten
    requires o.filePage.Fetched? && IsFirstQualifying(o.filePage.body, k)
    requires o.filePage.body[k] == Some(stem + ".ogg")
    requires StartsWith(stem, "http") && stem[|stem| - 1] != '/' && stem[|stem| - 1] != '.'
    requires '#' !in stem && '?' !in stem && ';' !in stem
    ensures var t := Download(u, o, join);
            t.Result() == Some("dinde_french.ogg") && t.quits == 1
  {
    var link := stem + ".ogg";
    assert StartsWith(link, "http") by {
      assert link[..4] == stem[..4];
    }
    FirstDownloadLinkAt(o.filePage.body, k);
    SavedUnderDerivedName(u, o, join);
    WordOfDinde();
    FileNameDinde(stem);
  }
}

=== FILE: text.dfy ===
/** The string operations of Python's `str` that the downloader relies on,
    restricted to what the script, `urlparse` and `os.path.splitext` use on
    its behalf: prefix and suffix tests, substring counting, ASCII
    lower-casing, first- and last-occurrence search and splitting on one
    separator character. */
module Text {

  /** `s.startswith(prefix)` */
  predicate StartsWith(s: string, prefix: string) {
    |prefix| <= |s| && s[..|prefix|] == prefix
  }

  /** `s.endswith(suffix)` */
  predicate EndsWith(s: string, suffix: string) {
    |suffix| <= |s| && s[|s| - |suffix|..] == suffix
  }

  /** `sub` occurs in `s` starting at index `i`. */
  predicate OccursAt(s: string, sub: string, i: int) {
    0 <= i && i + |sub| <= |s| && s[i..i + |sub|] == sub
  }

  /** `sub in s` */
  ghost predicate Occurs(s: string, sub: string) {
    exists i :: OccursAt(s, sub, i)
  }

  /** `s.count(sub)` for a non-empty `sub`: the number of non-overlapping
      occurrences, found scanning left to right. */
  function Count(s: string, sub: string): (n: nat)
    requires |sub| > 0
    ensures n <= |s|
    ensures n > 0 ==> |sub| <= |s|
    decreases |s|
  {
    if |s| < |sub| then 0
    else if s[..|sub|] == sub then 1 + Count(s[|sub|..], sub)
    else Count(s[1..], sub)
  }

  /** An occurrence in `s[1..]` is one in `s`, one place further on. */
  lemma OccursInTail(s: string, sub: string, j: int)
    requires |s| > 0 && 0 <= j
    ensures OccursAt(s[1..], sub, j) <==> OccursAt(s, sub, j + 1)
  {
    if j + |sub| <= |s| - 1 {
      assert s[1..][j..j + |sub|] == s[j + 1..j + 1 + |sub|];
    }
  }

  /** The script tests `count(...) > 0`; that is exactly "occurs somewhere". */
  lemma {:induction false} CountPositiveIffOccurs(s: string, sub: string)
    requires |sub| > 0
    ensures Count(s, sub) > 0 <==> Occurs(s, sub)
    decreases |s|
  {
    if |s| < |sub| {
    } else if s[..|sub|] == sub {
      assert OccursAt(s, sub, 0);
    } else {
      CountPositiveIffOccurs(s[1..], sub);
      if Count(s[1..], sub) > 0 {
        var j :| OccursAt(s[1..], sub, j);
        OccursInTail(s, sub, j);
      }
      if Occurs(s, sub) {
        var i :| OccursAt(s, sub, i);
        assert i != 0;
        OccursInTail(s, sub, i - 1);
      }
    }
  }

  predicate IsUpper(c: char) {
    'A' <= c <= 'Z'
  }

  /** ASCII `c.lower()` */
  function LowerChar(c: char): (d: char)
    ensures !IsUpper(d)
    ensures IsUpper(c) ==> d as int == c as int + 32
    ensures !IsUpper(c) ==> d == c
  {
    if IsUpper(c) then (c as int + 32) as char else c
  }

  /** ASCII `s.lower()`: every character lowered in place. */
  function Lower(s: string): (r: string)
    ensures |r| == |s|
    ensures forall i :: 0 <= i < |s| ==> r[i] == LowerChar(s[i])
  {
    seq(|s|, i requires 0 <= i < |s| => LowerChar(s[i]))
  }

  /** Lowering leaves no upper-case letter behind and is idempotent. */
  lemma LowerIsLowerCase(s: string)
    ensures forall i :: 0 <= i < |s| ==> !IsUpper(Lower(s)[i])
    ensures Lower(Lower(s)) == Lower(s)
  {
  }

  /** `s.rfind(c)`: the last index holding `c`, or -1 when there is none. */
  function LastIndexOf(s: string, c: char): (i: int)
    ensures -1 <= i < |s|
    ensures i >= 0 ==> s[i] == c
    ensures forall j :: i < j < |s| ==> s[j] != c
    ensures i == -1 <==> c !in s
  {
    if |s| == 0 then -1
    else if s[|s| - 1] == c then |s| - 1
    else LastIndexOf(s[..|s| - 1], c)
  }

  /** `s.split(c, 1)[0]`: `s` up to its first `c`, or all of `s`. */
  function BeforeFirst(s: string, c: char): (r: string)
    ensures |r| <= |s| && r == s[..|r|]
    ensures forall j :: 0 <= j < |r| ==> s[j] != c
    ensures |r| < |s| ==> s[|r|] == c
  {
    if |s| == 0 then ""
    else if s[0] == c then ""
    else [s[0]] + BeforeFirst(s[1..], c)
  }

  /** Without a `c`, nothing is cut. */
  lemma BeforeFirstAbsent(s: string, c: char)
    requires c !in s
    ensures BeforeFirst(s, c) == s
  {
  }

  /** The first `c` of `s` is at `k` (or `s` has none and `k == |s|`), so
      `BeforeFirst` cuts there. */
  lemma BeforeFirstAt(s: string, c: char, k: int)
    requires 0 <= k <= |s|
    requires forall j :: 0 <= j < k ==> s[j] != c
    requires k < |s| ==> s[k] == c
    ensures BeforeFirst(s, c) == s[..k]
  {
  }

  /** `s.split(sep)` for a one-character separator: the pieces between
      separators, empty pieces included, never an empty list. */
  function Split(s: string, sep: char): (parts: seq<string>)
    ensures |parts| >= 1
    ensures forall k :: 0 <= k < |parts| ==> sep !in parts[k]
    ensures sep !in s ==> parts == [s]
    ensures sep in s ==> |parts| >= 2
    decreases |s|
  {
    if |s| == 0 then [""]
    else
      assert s == [s[0]] + s[1..];
      var rest := Split(s[1..], sep);
      if s[0] == sep then [""] + rest
      else [[s[0]] + rest[0]] + rest[1..]
  }

  /** `sep.join(parts)` */
  function Join(parts: seq<string>, sep: char): string
    requires |parts| >= 1
  {
    if |parts| == 1 then parts[0] else parts[0] + [sep] + Join(parts[1..], sep)
  }

  lemma JoinEmptyHead(rest: seq<string>, sep: char)
    requires |rest| >= 1
    ensures Join([""] + rest, sep) == [sep] + Join(rest, sep)
  {
    assert ([""] + rest)[1..] == rest;
  }

  lemma JoinConsChar(c: char, rest: seq<string>, sep: char)
    requires |rest| >= 1
    ensures Join([[c] + rest[0]] + rest[1..], sep) == [c] + Join(rest, sep)
  {
    var parts := [[c] + rest[0]] + rest[1..];
    if |rest| > 1 {
      assert parts[1..] == rest[1..];
      assert Join(parts, sep) == ([c] + rest[0]) + [sep] + Join(rest[1..], sep);
      assert Join(rest, sep) == rest[0] + [sep] + Join(rest[1..], sep);
    }
  }

  /** Joining the pieces of a split gives back the original string. */
  lemma {:induction false} JoinSplit(s: string, sep: char)
    ensures Join(Split(s, sep), sep) == s
    decreases |s|
  {
    if |s| > 0 {
      var rest := Split(s[1..], sep);
      JoinSplit(s[1..], sep);
      assert s == [s[0]] + s[1..];
      if s[0] == sep {
        assert Split(s, sep) == [""] + rest;
        JoinEmptyHead(rest, sep);
      } else {
        assert Split(s, sep) == [[s[0]] + rest[0]] + rest[1..];
        JoinConsChar(s[0], rest, sep);
      }
    }
  }

  /** Splitting right after a separator-free piece peels that piece off. */
  lemma {:induction false} SplitAfterPiece(p: string, sep: char, t: string)
    requires sep !in p
    ensures Split(p + [sep] + t, sep) == [p] + Split(t, sep)
    decreases |p|
  {
    var s := p + [sep] + t;
    if |p| == 0 {
      assert s == [sep] + t;
      assert s[1..] == t;
    } else {
      assert s[1..] == p[1..] + [sep] + t;
      SplitAfterPiece(p[1..], sep, t);
      assert [s[0]] + p[1..] == p;
    }
  }

  /** Splitting a join of separator-free pieces gives back the pieces. */
  lemma {:induction false} SplitJoin(parts: seq<string>, sep: char)
    requires |parts| >= 1
    requires forall k :: 0 <= k < |parts| ==> sep !in parts[k]
    ensures Split(Join(parts, sep), sep) == parts
    decreases |parts|
  {
    if |parts| > 1 {
      SplitJoin(parts[1..], sep);
      SplitAfterPiece(parts[0], sep, Join(parts[1..], sep));
      assert [parts[0]] + parts[1..] == parts;
    }
  }

  /** `seg` is the last `sep`-separated piece of `s`: a separator-free
      suffix that is either all of `s` or preceded by a separator. */
  predicate IsLastPiece(s: string, sep: char, seg: string) {
    && sep !in seg
    && EndsWith(s, seg)
    && (|seg| == |s| || s[|s| - |seg| - 1] == sep)
  }

  /** At most one string is the last piece of `s`. */
  lemma LastPieceUnique(s: string, sep: char, a: string, b: string)
    requires IsLastPiece(s, sep, a) && IsLastPiece(s, sep, b)
    ensures a == b
  {
  }

  /** A last piece of `s[1..]` that does not start at index 1, or that
      follows a separator at index 0, is also a last piece of `s`. */
  lemma LastPieceOfTail(s: string, sep: char, seg: string)
    requires |s| > 0 && IsLastPiece(s[1..], sep, seg)
    requires |seg| < |s| - 1 || s[0] == sep
    ensures IsLastPiece(s, sep, seg)
  {
    assert s[|s| - |seg|..] == s[1..][|s[1..]| - |seg|..];
    if |seg| < |s| - 1 {
      assert s[|s| - |seg| - 1] == s[1..][|s[1..]| - |seg| - 1];
    }
  }

  /** A split after a leading separator ends like the split of the rest. */
  lemma LastOfSplitAfterSep(s: string, sep: char)
    requires |s| > 0 && s[0] == sep
    requires var rest := Split(s[1..], sep); IsLastPiece(s[1..], sep, rest[|rest| - 1])
    ensures var parts := Split(s, sep); IsLastPiece(s, sep, parts[|parts| - 1])
  {
    var rest := Split(s[1..], sep);
    assert Split(s, sep) == [""] + rest;
    LastPieceOfTail(s, sep, rest[|rest| - 1]);
  }

  /** A split whose rest has several pieces ends like the split of the rest. */
  lemma LastOfSplitOfMany(s: string, sep: char)
    requires |s| > 0 && s[0] != sep && |Split(s[1..], sep)| > 1
    requires var rest := Split(s[1..], sep); IsLastPiece(s[1..], sep, rest[|rest| - 1])
    ensures var parts := Split(s, sep); IsLastPiece(s, sep, parts[|parts| - 1])
  {
    var rest := Split(s[1..], sep);
    var seg := rest[|rest| - 1];
    assert Split(s, sep) == [[s[0]] + rest[0]] + rest[1..];
    assert sep in s[1..];
    assert |seg| < |s| - 1;
    LastPieceOfTail(s, sep, seg);
  }

  /** A string that starts with a non-separator and whose rest splits into
      one piece is its own single piece. */
  lemma LastOfSplitOfOne(s: string, sep: char)
    requires |s| > 0 && s[0] != sep && |Split(s[1..], sep)| == 1
    ensures Split(s, sep) == [s]
  {
    assert sep !in s[1..];
    assert s == [s[0]] + s[1..];
  }

  lemma {:induction false} LastOfSplitIsLastPiece(s: string, sep: char)
    ensures var parts := Split(s, sep); IsLastPiece(s, sep, parts[|parts| - 1])
    decreases |s|
  {
    if |s| > 0 {
      LastOfSplitIsLastPiece(s[1..], sep);
      if s[0] == sep {
        LastOfSplitAfterSep(s, sep);
      } else if |Split(s[1..], sep)| == 1 {
        LastOfSplitOfOne(s, sep);
      } else {
        LastOfSplitOfMany(s, sep);
      }
    }
  }

  /** `s.split(sep)[-1]` */
  function LastPiece(s: string, sep: char): (seg: string)
    ensures IsLastPiece(s, sep, seg)
  {
    var parts := Split(s, sep);
    LastOfSplitIsLastPiece(s, sep);
    parts[|parts| - 1]
  }
}

=== FILE: urls.dfy ===
/** The request URL and what the downloader reads from it (py/main.py,
    lines 29-35 and 136): the word is the last `/`-separated piece of the
    path, the language is the fragment, and the origin used to absolutise
    relative links is `scheme://netloc`. */
module Urls {
  import opened Wrappers
  import opened Text

  /** A request URL as `urlparse` splits it. An absent fragment is the empty
      string, which is how `urlparse` reports it. Query and parameters are
      not read by the script and are not represented. */
  datatype Url = Url(scheme: string, netloc: string, path: string, fragment: string)

  /** The word/language pair a request is about. */
  datatype Request = Request(word: string, language: string)

  /** `f"{scheme}://{netloc}"` */
  function Origin(u: Url): string {
    u.scheme + "://" + u.netloc
  }

  /** Lines 29-35: the language is the fragment verbatim; a request without
      one is rejected. The word is `path.split('/')[-1]`. */
  function ParseRequest(u: Url): (r: Option<Request>)
    ensures r.None? <==> u.fragment == ""
    ensures r.Some? ==> r.value.language == u.fragment
    ensures r.Some? ==> IsLastPiece(u.path, '/', r.value.word)
  {
    if u.fragment == "" then None
    else Some(Request(LastPiece(u.path, '/'), u.fragment))
  }

  /** The docstring's example URL (line 23): path `/wiki/dinde` names the word "dinde". */
  lemma WordOfDinde()
    ensures LastPiece("/wiki/dinde", '/') == "dinde"
  {
    assert IsLastPiece("/wiki/dinde", '/', "dinde");
    LastPieceUnique("/wiki/dinde", '/', LastPiece("/wiki/dinde", '/'), "dinde");
  }

  /** The docstring's example URL (line 23): `/wiki/dinde#French` asks for "dinde" in French. */
  lemma ParseDinde(u: Url)
    requires u.path == "/wiki/dinde" && u.fragment == "French"
    ensures ParseRequest(u) == Some(Request("dinde", "French"))
  {
    WordOfDinde();
  }
}

=== FILE: wrappers.dfy ===
/** Failure-carrying datatypes used throughout the model: Python's
    `None`-or-value results and error-or-value results. */
module Wrappers {

  /** A value or Python's `None`. */
  datatype Option<+T> = None | Some(value: T)

  /** A value, or the kind of error that stopped the computation. */
  datatype Result<+R, +E> = Success(value: R) | Failure(error: E)
}
